=== FILE: README.md ===
# Raven: upload slot and user onboarding, modelled in Dafny

This project models two small pieces of the Raven chat application.

**The single-file upload box** of the user-settings avatar uploader
(`FileUploadBox` and its `FileItem`). It covers four things:
- the size validator handed to the drop area, with limits in decimal megabytes and a strict comparison;
- the drop handler: it keeps the first received file, sets its progress to 0 and gives it the id `name + Date.now()`;
- the removal handler: it empties the slot and deletes one key from the progress map;
- the display rules of the item row: when the spinner and when the remove button appear.

The slot (owned by the parent through `onFileChange`) and the box's progress
map together form `FileUploadBox.BoxState`. `Step` and `Run` replay drops and
remove-clicks from the mounted state.

**User onboarding on the server** (`raven/api/raven_users.py`):
- `add_users_to_raven` splits the listed users into failed users (their roles come from a role profile) and successful users (they get a "Raven User" role row);
- `is_user_on_leave` checks three things: the HR app (`hrms`) is installed, an employee is linked to the user, and a submitted "On Leave" attendance exists for today.

The database is passed in as plain values.

Files:
- `wrappers.dfy`: `Option` and `Result`.
- `decimal.dfy`: how JavaScript spells an integral number when it is concatenated to a string, and the inverse parse.
- `file_upload_box.dfy`: the upload box.
- `raven_users.dfy`: the onboarding endpoints.

Modelling choices:
- `Date.now()` is a parameter `now`.
- The `User`, `Employee` and `Attendance` tables are inputs: a name-to-document map and two sequences in database order.
- The installed apps and today's date are inputs.
- A missing `User` makes `frappe.get_doc` raise. This is modelled as `Failure(name)` for the first missing name.

Facts about the box that shape the model:
- The box has no MIME check of its own; filtering is done by the drop library.
- No code in the box writes a progress value.
- A drop does not delete the previous file's progress entry; only `removeFile` deletes one (`Step` keeps the map unchanged on a drop).

## Model

| member | source | states |
|---|---|---|
| FileUploadBox.FileSizeValidator | frontend/src/components/feature/userSettings/UploadImage/FileUploadBox.tsx:29-37 | rejects, always with code "size-too-large", exactly when a limit is set and non-zero and the size exceeds limit × 1,000,000 bytes |
| FileUploadBox.LimitIsSet | frontend/src/components/feature/userSettings/UploadImage/FileUploadBox.tsx:30 | defines the JavaScript truthiness of `maxFileSize` tested at line 30 (undefined and 0 are falsy); its meaning is pinned down by the validator's contract |
| FileUploadBox.ValidatorAcceptsExactLimit | frontend/src/components/feature/userSettings/UploadImage/FileUploadBox.tsx:30 | a file of exactly the limit in bytes is accepted; one byte more is rejected |
| FileUploadBox.ValidatorUsesDecimalMegabytes | frontend/src/components/feature/userSettings/UploadImage/FileUploadBox.tsx:30 | a file of limit × 1,048,576 bytes is already too large: megabytes are decimal |
| FileUploadBox.ValidatorOffWhenLimitFalsy | frontend/src/components/feature/userSettings/UploadImage/FileUploadBox.tsx:30-36 | with the limit undefined or 0, no file is rejected, whatever its size |
| FileUploadBox.ValidatorMonotonic | frontend/src/components/feature/userSettings/UploadImage/FileUploadBox.tsx:30 | if a file is rejected, every larger file is rejected under the same limit |
| FileUploadBox.OnDrop | frontend/src/components/feature/userSettings/UploadImage/FileUploadBox.tsx:40-47 | an empty drop leaves the slot unchanged; otherwise the slot holds the first received file with progress 0, and its id starts with the name and ends with text that parses back to the timestamp |
| FileUploadBox.DropKeepsOnlyFirst | frontend/src/components/feature/userSettings/UploadImage/FileUploadBox.tsx:41-45 | the result of a drop depends only on its first file, not on the rest or on what the slot held before |
| FileUploadBox.DropIdsDistinctOverTime | frontend/src/components/feature/userSettings/UploadImage/FileUploadBox.tsx:44 | dropping the same file at two different instants yields two different ids |
| FileUploadBox.RemoveFile | frontend/src/components/feature/userSettings/UploadImage/FileUploadBox.tsx:67-74 | the slot becomes empty; exactly key `id` leaves the progress map, every other entry is kept with its value, and an absent key leaves the map as it was |
| FileUploadBox.RemoveFileIdempotent | frontend/src/components/feature/userSettings/UploadImage/FileUploadBox.tsx:67-73 | removing the same id twice equals removing it once |
| FileUploadBox.FileItem | frontend/src/components/feature/userSettings/UploadImage/FileUploadBox.tsx:116-157 | without a map entry, progress is 0 and not complete; with one, both come from the entry (progress is any real number, fractions included); the spinner shows exactly when not complete and progress > 0; the remove button shows exactly when there is no entry, and never together with the spinner |
| FileUploadBox.FileItemIgnoresFileField | frontend/src/components/feature/userSettings/UploadImage/FileUploadBox.tsx:120-121 | the row reads progress only from the map, never from the `uploadProgress` field set on the file |
| FileUploadBox.Render | frontend/src/components/feature/userSettings/UploadImage/FileUploadBox.tsx:105 | an item row is rendered exactly when the slot holds a file, with a remove button exactly when its id has no progress entry |
| FileUploadBox.Step | frontend/src/components/feature/userSettings/UploadImage/FileUploadBox.tsx:40-105 | a drop or a remove-click never adds or changes a progress entry; a drop leaves the map untouched |
| FileUploadBox.RunOnlyShrinksProgress | frontend/src/components/feature/userSettings/UploadImage/FileUploadBox.tsx:65-74 | over any sequence of drops and remove-clicks, the progress map only loses keys and keeps the values of the rest |
| FileUploadBox.ReachableItemIsRemovable | frontend/src/components/feature/userSettings/UploadImage/FileUploadBox.tsx:65-147 | from the mounted state the map stays empty, so a held file always shows progress 0, no spinner and the remove button |
| Decimal.NatToString | frontend/src/components/feature/userSettings/UploadImage/FileUploadBox.tsx:44 | the timestamp's text is non-empty, all digits, and has no leading zero |
| Decimal.IntToString | frontend/src/components/feature/userSettings/UploadImage/FileUploadBox.tsx:44 | the text appended to the file name: starts with '-' exactly for a negative timestamp, otherwise all digits, and always an optional sign followed by at least one digit |
| Decimal.ParseIntToString | frontend/src/components/feature/userSettings/UploadImage/FileUploadBox.tsx:44 | parsing the text of a timestamp gives back the timestamp |
| Decimal.IntToStringInjective | frontend/src/components/feature/userSettings/UploadImage/FileUploadBox.tsx:44 | different timestamps have different texts |
| RavenUsers.HasRoleProfile | raven/api/raven_users.py:108-111 | defines the Python truthiness of the two role-profile fields tested at lines 108 and 111; `ClassificationIff` states what it decides |
| RavenUsers.GrantRavenRole | raven/api/raven_users.py:114 | the user's roles gain one trailing "Raven User" row; name and role-profile fields are unchanged |
| RavenUsers.Load | raven/api/raven_users.py:105-106 | one document per listed name, in list order, each the stored document of that name |
| RavenUsers.Refused | raven/api/raven_users.py:108-111 | every failed user is an input user with a role profile |
| RavenUsers.Eligible | raven/api/raven_users.py:113-116 | every user picked for the role is an input user without a role profile |
| RavenUsers.GrantAll | raven/api/raven_users.py:114-116 | one granted document per eligible user, at the same position |
| RavenUsers.AddUsersToRaven | raven/api/raven_users.py:97-118 | succeeds exactly when every name exists; the failed list is the role-profile users unchanged, and the success list is the others with the role appended; otherwise fails with the first missing name |
| RavenUsers.PartitionSizes | raven/api/raven_users.py:105-118 | the lengths of the success and failed lists add up to the number of input users |
| RavenUsers.PartitionMultiset | raven/api/raven_users.py:105-118 | the failed users and the users picked for the role together are the input users, counted with multiplicity |
| RavenUsers.ClassificationIff | raven/api/raven_users.py:108-116 | an input user is failed exactly when a role profile governs them, picked exactly otherwise, and then appears granted in the success list |
| RavenUsers.PartitionPreservesOrder | raven/api/raven_users.py:105-116 | each list keeps the relative input order of its users |
| RavenUsers.FindEmployee | raven/api/raven_users.py:76 | finds the name of the first employee linked to the user, and none exactly when no employee is linked |
| RavenUsers.LeaveRecordedToday | raven/api/raven_users.py:80-88 | defines the attendance existence lookup: a record of that employee with status "On Leave", today's date and docstatus 1; `OnLeaveCharacterisation` states what it decides |
| RavenUsers.IsUserOnLeave | raven/api/raven_users.py:67-93 | false whenever the HR app is not installed; true only if an employee linked to the user has a submitted "On Leave" attendance dated today |
| RavenUsers.OnLeaveCharacterisation | raven/api/raven_users.py:73-93 | when at most one named employee is linked to the user, on leave exactly when the HR app is installed and that employee has a submitted "On Leave" attendance for today |

## Left out

- Notifications (`toast`) and drag-enter styling: they are UI side effects with no effect on the state.
- The drop library's internals: MIME `accept` filtering, `maxFiles: 1`, and how it applies the validator before calling `onDrop`. That library is not part of this model. `OnDrop` receives the list the library passes on.
- `useImperativeHandle` / `open()`, preview URLs and `getFileSize`: these are rendering and foreign hooks.
- The clock: `Date.now()` is a parameter. The model handles any integer value, including negative ones, which JavaScript spells with a leading '-'. Values of 10^21 and above would be spelled with an exponent, but `Date.now()` cannot reach them.
- FileUploadBox.FileSizeValidator: the limit is modelled as an optional integer. Fractional limits and `NaN` (a falsy number) are not modelled, because JavaScript numbers are floating point.
- Writers of progress values: none exist in this code, so no progress-update or completion rule is modelled.
- `ImageUploader.tsx`, `LinkField.tsx` and `RavenSettings.ts`: these are dialogs, remote calls, remote search and a type declaration, with no local logic.
- In `raven_users.py`, these are framework and persistence I/O: permission checks, `get_current_raven_user`, `get_list`, `get_users` (its ordering is done by the database), Redis caching, and JSON parsing of a string `users` argument.
- FileUploadBox.Step: the `file` slot belongs to the parent, which is not part of this model. `Step` assumes the parent stores exactly the value passed to `onFileChange` and changes `file` by no other path.
- RavenUsers.AddUsersToRaven: `user_doc.save()` is persistence I/O and is not modelled. The model assumes it never raises and leaves the returned success document exactly as appended. The framework's validation on save is not part of this model; it could rewrite `roles` (for instance drop a duplicate "Raven User" row) or raise a permission error.
- FileUploadBox.FileItem: progress values are JavaScript numbers, modelled as reals, so fractional progress is covered; `NaN` (for which `progress > 0` is false) is not modelled.
- RavenUsers.AddUsersToRaven: every document is read from one snapshot. A name listed twice therefore does not see the role row saved for its first listing. The rollback of earlier saves when a later name is missing belongs to the framework.
- RavenUsers.AddUsersToRaven and RavenUsers.IsUserOnLeave: name lookups (`get_doc` by user name, the `user_id` and `employee` filters) are modelled as exact string equality. The database's collation, which by default compares case-insensitively and ignores trailing spaces, is not modelled.
- RavenUsers.IsUserOnLeave: the "exists" lookups are modelled as first-match and any-match over sequences in database order. The characterisation lemma assumes at most one employee per user. When several employees are linked, only the first one the database returns is consulted.

=== FILE: decimal.dfy ===
/**
  The decimal spelling JavaScript gives an integral number when it is
  concatenated to a string (`name + Date.now()`), and its inverse.
  Integral numbers whose magnitude is below 10^21 are written as plain
  digits with a leading '-' when negative; every value `Date.now()` can
  return lies in that range.
 */
module Decimal {

  predicate IsDigit(c: char) {
    '0' <= c <= '9'
  }

  predicate AllDigits(s: string) {
    forall i :: 0 <= i < |s| ==> IsDigit(s[i])
  }

  function DigitChar(d: nat): (c: char)
    requires d < 10
    ensures IsDigit(c)
    ensures DigitValue(c) == d
  {
    ('0' as int + d) as char
  }

  function DigitValue(c: char): (d: nat)
    requires IsDigit(c)
    ensures d < 10
  {
    c as int - '0' as int
  }

  /** Shortest decimal spelling of a natural number: digits only, no leading zero. */
  function NatToString(n: nat): (s: string)
    ensures |s| > 0
    ensures AllDigits(s)
    ensures s[0] == '0' ==> n == 0
    decreases n
  {
    if n < 10 then [DigitChar(n)] else NatToString(n / 10) + [DigitChar(n % 10)]
  }

  /** The value of a string of decimal digits (most significant first). */
  function ParseNat(s: string): (n: nat)
    requires AllDigits(s)
    decreases |s|
  {
    if |s| == 0 then 0 else ParseNat(s[..|s| - 1]) * 10 + DigitValue(s[|s| - 1])
  }

  /** JavaScript's string form of an integral number. */
  function IntToString(t: int): (s: string)
    ensures WellFormed(s)
    ensures s[0] == '-' <==> t < 0
    ensures t >= 0 ==> AllDigits(s)
  {
    if t < 0 then "-" + NatToString(-t) else NatToString(t)
  }

  /** Strings that `IntToString` can produce the shape of: an optional '-' followed by at least one digit. */
  predicate WellFormed(s: string) {
    if |s| > 0 && s[0] == '-' then |s| > 1 && AllDigits(s[1..]) else |s| > 0 && AllDigits(s)
  }

  function ParseInt(s: string): (t: int)
    requires WellFormed(s)
  {
    if s[0] == '-' then -(ParseNat(s[1..]) as int) else ParseNat(s)
  }

  lemma {:induction false} ParseNatToString(n: nat)
    ensures ParseNat(NatToString(n)) == n
    decreases n
  {
    var s := NatToString(n);
    if n >= 10 {
      var p := NatToString(n / 10);
      assert s == p + [DigitChar(n % 10)];
      assert s[..|s| - 1] == p;
      ParseNatToString(n / 10);
    }
  }

  /** Parsing undoes the spelling: the timestamp can be read back from its text. */
  lemma ParseIntToString(t: int)
    ensures ParseInt(IntToString(t)) == t
  {
    var s := IntToString(t);
    if t < 0 {
      assert s[1..] == NatToString(-t);
      ParseNatToString(-t);
    } else {
      ParseNatToString(t);
    }
  }

  /** Distinct integers are spelled differently. */
  lemma IntToStringInjective(a: int, b: int)
    requires a != b
    ensures IntToString(a) != IntToString(b)
  {
    ParseIntToString(a);
    ParseIntToString(b);
  }
}

=== FILE: file_upload_box.dfy ===
/**
  The single-file upload box of the user-settings avatar uploader: a size
  validator handed to the drop area, the drop handler that fills the slot,
  the removal handler that clears the slot and its progress entry, and the
  display rules of the item shown for the held file.

  The `file` slot belongs to the parent (it is a prop updated through
  `onFileChange`); the progress map is the box's own state. Both are
  gathered here in one immutable `BoxState`.
 */
module FileUploadBox {
  import opened Wrappers
  import Decimal

  /** A file as the drop area hands it over (the browser `File`, reduced to what the box reads). */
  datatype DroppedFile = DroppedFile(name: string, size: nat)

  /** The browser file with the two fields the box writes onto it. */
  datatype CustomFile = CustomFile(name: string, size: nat, uploadProgress: real, fileID: string)

  /** One entry of the progress map, keyed by `fileID`; progress is a JavaScript number (a real here). */
  datatype FileUploadProgress = FileUploadProgress(progress: real, isComplete: bool)

  /** The rejection the validator returns to the drop area. */
  datatype FileError = FileError(code: string, message: string)

  const SizeTooLarge: string := "size-too-large"
  const SizeTooLargeMessage: string := "File size is larger than the required size."

  /** The limit is given in decimal megabytes. */
  const BytesPerMegabyte: nat := 1000000

  /** JavaScript truthiness of the optional `maxFileSize` prop: `undefined` and `0` switch the check off. */
  predicate LimitIsSet(maxFileSize: Option<int>) {
    maxFileSize.Some? && maxFileSize.value != 0
  }

  /** The validator: `None` accepts the file, `Some(e)` rejects it with `e`. */
  function FileSizeValidator(maxFileSize: Option<int>, file: DroppedFile): (r: Option<FileError>)
    ensures r.Some? <==> LimitIsSet(maxFileSize) && file.size > maxFileSize.value * BytesPerMegabyte
    ensures r.Some? ==> r.value.code == SizeTooLarge
  {
    if maxFileSize.Some? && maxFileSize.value != 0 && file.size > maxFileSize.value * 1000000 then
      Some(FileError(SizeTooLarge, SizeTooLargeMessage))
    else
      None
  }

  /** A file of exactly the limit is accepted: the comparison is strict. */
  lemma ValidatorAcceptsExactLimit(limit: int, name: string)
    requires limit > 0
    ensures FileSizeValidator(Some(limit), DroppedFile(name, limit * BytesPerMegabyte)).None?
    ensures FileSizeValidator(Some(limit), DroppedFile(name, limit * BytesPerMegabyte + 1)).Some?
  {
  }

  /** A limit of m megabytes is m * 10^6 bytes, not m * 2^20: a file of m binary megabytes is rejected. */
  lemma ValidatorUsesDecimalMegabytes(limit: int, name: string)
    requires limit > 0
    ensures FileSizeValidator(Some(limit), DroppedFile(name, limit * 1048576)).Some?
  {
  }

  /** Without a limit, or with a limit of 0, nothing is rejected. */
  lemma ValidatorOffWhenLimitFalsy(maxFileSize: Option<int>, file: DroppedFile)
    requires maxFileSize == None || maxFileSize == Some(0)
    ensures FileSizeValidator(maxFileSize, file).None?
  {
  }

  /** Rejection is upward closed in the file size. */
  lemma ValidatorMonotonic(maxFileSize: Option<int>, small: DroppedFile, large: DroppedFile)
    requires small.size <= large.size
    ensures FileSizeValidator(maxFileSize, small).Some? ==> FileSizeValidator(maxFileSize, large).Some?
  {
  }

  /** The slot owned by the parent: empty or holding one file. */
  type Slot = Option<CustomFile>

  /**
    The drop handler. An empty drop leaves the slot as it was; otherwise the
    first received file, with progress 0 and id `name + now`, replaces
    whatever the slot held. `now` stands for `Date.now()`.
   */
  function OnDrop(slot: Slot, received: seq<DroppedFile>, now: int): (r: Slot)
    ensures |received| == 0 ==> r == slot
    ensures |received| > 0 ==> r.Some?
    ensures |received| > 0 ==>
      var f := r.value;
      && f.name == received[0].name
      && f.size == received[0].size
      && f.uploadProgress == 0.0
      && |f.name| < |f.fileID|
      && f.fileID[..|f.name|] == f.name
      && Decimal.WellFormed(f.fileID[|f.name|..])
      && Decimal.ParseInt(f.fileID[|f.name|..]) == now
  {
    if |received| > 0 then
      var f := received[0];
      var id := f.name + Decimal.IntToString(now);
      Decimal.ParseIntToString(now);
      assert id[|f.name|..] == Decimal.IntToString(now);
      Some(CustomFile(f.name, f.size, 0.0, id))
    else
      slot
  }

  /** Only the first received file matters, and the previous content of the slot does not. */
  lemma DropKeepsOnlyFirst(a: Slot, b: Slot, received: seq<DroppedFile>, now: int)
    requires |received| > 0
    ensures OnDrop(a, received, now) == OnDrop(b, received[..1], now)
  {
  }

  /** Dropping the same file name at two different instants yields two different ids. */
  lemma DropIdsDistinctOverTime(slot: Slot, file: DroppedFile, t1: int, t2: int)
    requires t1 != t2
    ensures OnDrop(slot, [file], t1).value.fileID != OnDrop(slot, [file], t2).value.fileID
  {
  }

  /** The box's state: the parent's slot and the box's progress map. */
  datatype BoxState = BoxState(file: Slot, uploadProgress: map<string, FileUploadProgress>)

  /** The removal handler: empties the slot and deletes exactly key `id` from the progress map. */
  function RemoveFile(s: BoxState, id: string): (r: BoxState)
    ensures r.file == None
    ensures r.uploadProgress.Keys == s.uploadProgress.Keys - {id}
    ensures forall k :: k in r.uploadProgress ==> r.uploadProgress[k] == s.uploadProgress[k]
    ensures id !in s.uploadProgress ==> r.uploadProgress == s.uploadProgress
  {
    BoxState(None, s.uploadProgress - {id})
  }

  /** Removing twice is removing once. */
  lemma RemoveFileIdempotent(s: BoxState, id: string)
    ensures RemoveFile(RemoveFile(s, id), id) == RemoveFile(s, id)
  {
  }

  /** What the item row shows for the held file. */
  datatype FileItemView = FileItemView(isUploadComplete: bool, progress: real, showsProgress: bool, showsRemoveButton: bool)

  /** The item's derived display values, read from the progress map by the file's id. */
  function FileItem(file: CustomFile, uploadProgress: map<string, FileUploadProgress>): (v: FileItemView)
    ensures file.fileID !in uploadProgress ==> !v.isUploadComplete && v.progress == 0.0
    ensures file.fileID in uploadProgress ==>
      v.isUploadComplete == uploadProgress[file.fileID].isComplete && v.progress == uploadProgress[file.fileID].progress
    ensures v.showsProgress <==> !v.isUploadComplete && v.progress > 0.0
    ensures v.showsRemoveButton <==> file.fileID !in uploadProgress
    ensures v.showsRemoveButton ==> !v.showsProgress
  {
    var entry := if file.fileID in uploadProgress then Some(uploadProgress[file.fileID]) else None;
    var isUploadComplete := if entry.Some? then entry.value.isComplete else false;
    var progress := if entry.Some? then entry.value.progress else 0.0;
    FileItemView(isUploadComplete, progress, !isUploadComplete && progress > 0.0, entry.None?)
  }

  /** The item never reads the `uploadProgress` field written onto the file, only the map. */
  lemma FileItemIgnoresFileField(file: CustomFile, p: real, uploadProgress: map<string, FileUploadProgress>)
    ensures FileItem(file.(uploadProgress := p), uploadProgress) == FileItem(file, uploadProgress)
  {
  }

  /** The box renders an item exactly when the slot holds a file. */
  function Render(s: BoxState): (r: Option<FileItemView>)
    ensures r.Some? <==> s.file.Some?
    ensures r.Some? ==> (r.value.showsRemoveButton <==> s.file.value.fileID !in s.uploadProgress)
  {
    if s.file.Some? then Some(FileItem(s.file.value, s.uploadProgress)) else None
  }

  /** The inputs that reach the box: a drop (with the clock's reading) or a click on the remove button. */
  datatype Event = Drop(received: seq<DroppedFile>, now: int) | ClickRemove

  /**
    One reaction. A drop only changes the slot; a click removes the held
    file by its id, and can only happen while the remove button is shown.
   */
  function Step(s: BoxState, e: Event): (r: BoxState)
    ensures r.uploadProgress.Keys <= s.uploadProgress.Keys
    ensures forall k :: k in r.uploadProgress ==> r.uploadProgress[k] == s.uploadProgress[k]
    ensures e.Drop? ==> r.uploadProgress == s.uploadProgress
  {
    match e
    case Drop(received, now) => s.(file := OnDrop(s.file, received, now))
    case ClickRemove =>
      if s.file.Some? && FileItem(s.file.value, s.uploadProgress).showsRemoveButton then
        RemoveFile(s, s.file.value.fileID)
      else
        s
  }

  /** The state reached by reacting to `events` one after another, starting from `s`. */
  function Run(s: BoxState, events: seq<Event>): (r: BoxState)
    decreases |events|
  {
    if |events| == 0 then s else Run(Step(s, events[0]), events[1..])
  }

  /** No reaction adds or changes a progress entry: over any run the map only loses keys. */
  lemma {:induction false} RunOnlyShrinksProgress(s: BoxState, events: seq<Event>)
    ensures Run(s, events).uploadProgress.Keys <= s.uploadProgress.Keys
    ensures forall k :: k in Run(s, events).uploadProgress ==> Run(s, events).uploadProgress[k] == s.uploadProgress[k]
    decreases |events|
  {
    if |events| > 0 {
      RunOnlyShrinksProgress(Step(s, events[0]), events[1..]);
    }
  }

  /** The box as first mounted: no file, an empty progress map. */
  const Initial: BoxState := BoxState(None, map[])

  /**
    From the initial state the progress map stays empty, so a held file is
    always shown with progress 0, no spinner and the remove button.
   */
  lemma ReachableItemIsRemovable(events: seq<Event>)
    ensures Run(Initial, events).uploadProgress == map[]
    ensures Run(Initial, events).file.Some? ==> Render(Run(Initial, events)) == Some(FileItemView(false, 0.0, false, true))
  {
    RunOnlyShrinksProgress(Initial, events);
  }
}

=== FILE: raven_users.dfy ===
/**
  Server-side user onboarding: `add_users_to_raven`, which grants the
  "Raven User" role to every listed user whose roles are not governed by a
  role profile and reports the rest as failed, and `is_user_on_leave`,
  which asks the HR app whether the user's employee record has a submitted
  "On Leave" attendance for today. The database is given as plain values.
 */
module RavenUsers {
  import opened Wrappers

  /** One row of a user's `roles` child table. */
  datatype RoleRow = RoleRow(role: string)

  /**
    The fields of a `User` document the onboarding reads and writes.
    `roleProfiles` is `None` when the document has no such attribute.
   */
  datatype UserDoc = UserDoc(
    name: string,
    roleProfileName: Option<string>,
    roleProfiles: Option<seq<string>>,
    roles: seq<RoleRow>)

  const RavenUserRole: string := "Raven User"

  /** Python truthiness of an optional string field. */
  predicate Truthy(s: Option<string>) {
    s.Some? && s.value != ""
  }

  /** A user whose roles come from a role profile: the onboarding refuses to touch them. */
  predicate HasRoleProfile(u: UserDoc) {
    Truthy(u.roleProfileName) || (u.roleProfiles.Some? && |u.roleProfiles.value| > 0)
  }

  function GrantRavenRole(u: UserDoc): (g: UserDoc)
    ensures g.roles == u.roles + [RoleRow(RavenUserRole)]
    ensures g.name == u.name && g.roleProfileName == u.roleProfileName && g.roleProfiles == u.roleProfiles
  {
    u.(roles := u.roles + [RoleRow(RavenUserRole)])
  }

  /** The two lists the endpoint returns. */
  datatype Outcome = Outcome(successUsers: seq<UserDoc>, failedUsers: seq<UserDoc>)

  /** The documents of the listed users, in list order (every name must exist). */
  function Load(db: map<string, UserDoc>, users: seq<string>): (docs: seq<UserDoc>)
    requires forall i :: 0 <= i < |users| ==> users[i] in db
    ensures |docs| == |users|
    ensures forall i :: 0 <= i < |users| ==> docs[i] == db[users[i]]
  {
    seq(|users|, i requires 0 <= i < |users| => db[users[i]])
  }

  // Reference definitions of the two lists: filters over the loaded documents, in input order.

  /** The users with a role profile, in input order. */
  function Refused(docs: seq<UserDoc>): (r: seq<UserDoc>)
    ensures forall x :: x in r ==> x in docs && HasRoleProfile(x)
    decreases |docs|
  {
    if |docs| == 0 then []
    else Refused(docs[..|docs| - 1]) + (if HasRoleProfile(docs[|docs| - 1]) then [docs[|docs| - 1]] else [])
  }

  /** The users without a role profile, in input order, before the role is granted. */
  function Eligible(docs: seq<UserDoc>): (r: seq<UserDoc>)
    ensures forall x :: x in r ==> x in docs && !HasRoleProfile(x)
    decreases |docs|
  {
    if |docs| == 0 then []
    else Eligible(docs[..|docs| - 1]) + (if HasRoleProfile(docs[|docs| - 1]) then [] else [docs[|docs| - 1]])
  }

  /** Every document of `docs` with the "Raven User" role appended. */
  function GrantAll(docs: seq<UserDoc>): (r: seq<UserDoc>)
    ensures |r| == |docs|
    ensures forall i :: 0 <= i < |docs| ==> r[i] == GrantRavenRole(docs[i])
  {
    seq(|docs|, i requires 0 <= i < |docs| => GrantRavenRole(docs[i]))
  }

  /** Loading one more name appends that name's document. */
  lemma LoadSnoc(db: map<string, UserDoc>, users: seq<string>, i: nat)
    requires i < |users|
    requires forall j :: 0 <= j <= i ==> users[j] in db
    ensures Load(db, users[..i + 1]) == Load(db, users[..i]) + [db[users[i]]]
  {
  }

  /** Each filter extends by the appended document exactly when it belongs to that filter. */
  lemma RefusedSnoc(docs: seq<UserDoc>, u: UserDoc)
    ensures Refused(docs + [u]) == Refused(docs) + (if HasRoleProfile(u) then [u] else [])
    ensures Eligible(docs + [u]) == Eligible(docs) + (if HasRoleProfile(u) then [] else [u])
  {
  }

  /** Granting distributes over appending one document. */
  lemma GrantAllSnoc(docs: seq<UserDoc>, u: UserDoc)
    ensures GrantAll(docs + [u]) == GrantAll(docs) + [GrantRavenRole(u)]
  {
  }

  /** One pass of the loop: the next user goes to exactly one of the two lists. */
  lemma ClassifyStep(before: seq<UserDoc>, u: UserDoc, failed: seq<UserDoc>, success: seq<UserDoc>)
    requires failed == Refused(before) && success == GrantAll(Eligible(before))
    ensures HasRoleProfile(u) ==>
      failed + [u] == Refused(before + [u]) && success == GrantAll(Eligible(before + [u]))
    ensures !HasRoleProfile(u) ==>
      failed == Refused(before + [u]) && success + [GrantRavenRole(u)] == GrantAll(Eligible(before + [u]))
  {
    RefusedSnoc(before, u);
    GrantAllSnoc(Eligible(before), u);
  }

  /**
    `add_users_to_raven` over a snapshot `db` of the `User` table. Each
    name is looked up in list order; a missing name raises, which is
    reported as `Failure(name)`. Otherwise the users with a role profile
    come back unchanged as failed, the others with the role appended as
    successful, both in input order.
   */
  method AddUsersToRaven(db: map<string, UserDoc>, users: seq<string>) returns (r: Result<Outcome, string>)
    ensures r.Success? <==> forall i :: 0 <= i < |users| ==> users[i] in db
    ensures r.Success? ==>
      && r.value.failedUsers == Refused(Load(db, users))
      && r.value.successUsers == GrantAll(Eligible(Load(db, users)))
    ensures r.Failure? ==>
      exists k :: 0 <= k < |users| && users[k] == r.error && r.error !in db
        && forall j :: 0 <= j < k ==> users[j] in db
  {
    var failedUsers: seq<UserDoc> := [];
    var successUsers: seq<UserDoc> := [];
    var i := 0;
    while i < |users|
      invariant 0 <= i <= |users|
      invariant forall j :: 0 <= j < i ==> users[j] in db
      invariant failedUsers == Refused(Load(db, users[..i]))
      invariant successUsers == GrantAll(Eligible(Load(db, users[..i])))
    {
      if users[i] !in db {
        return Failure(users[i]);
      }
      var userDoc := db[users[i]];
      ghost var before := Load(db, users[..i]);
      LoadSnoc(db, users, i);
      ClassifyStep(before, userDoc, failedUsers, successUsers);
      if Truthy(userDoc.roleProfileName) {
        failedUsers := failedUsers + [userDoc];
      } else if userDoc.roleProfiles.Some? && |userDoc.roleProfiles.value| > 0 {
        failedUsers := failedUsers + [userDoc];
      } else {
        successUsers := successUsers + [GrantRavenRole(userDoc)];
      }
      i := i + 1;
    }
    assert users[..|users|] == users;
    r := Success(Outcome(successUsers, failedUsers));
  }

  /** Every input user lands in exactly one list: the lengths add up. */
  lemma {:induction false} PartitionSizes(docs: seq<UserDoc>)
    ensures |Refused(docs)| + |GrantAll(Eligible(docs))| == |docs|
    decreases |docs|
  {
    if |docs| > 0 {
      PartitionSizes(docs[..|docs| - 1]);
    }
  }

  /** The two lists together are the input, counted with multiplicity. */
  lemma {:induction false} PartitionMultiset(docs: seq<UserDoc>)
    ensures multiset(Refused(docs)) + multiset(Eligible(docs)) == multiset(docs)
    decreases |docs|
  {
    if |docs| > 0 {
      var init := docs[..|docs| - 1];
      PartitionMultiset(init);
      MultisetSnoc(docs);
    }
  }

  /** The multiset of a non-empty sequence is that of its prefix plus its last element. */
  lemma MultisetSnoc(docs: seq<UserDoc>)
    requires |docs| > 0
    ensures multiset(docs) == multiset(docs[..|docs| - 1]) + multiset{docs[|docs| - 1]}
  {
    assert docs == docs[..|docs| - 1] + [docs[|docs| - 1]];
  }

  /** A listed user is refused exactly when a role profile governs them, and granted exactly otherwise. */
  lemma {:induction false} ClassificationIff(docs: seq<UserDoc>, u: UserDoc)
    requires u in docs
    ensures u in Refused(docs) <==> HasRoleProfile(u)
    ensures u in Eligible(docs) <==> !HasRoleProfile(u)
    ensures GrantRavenRole(u) in GrantAll(Eligible(docs)) <== !HasRoleProfile(u)
    decreases |docs|
  {
    var init := docs[..|docs| - 1];
    var last := docs[|docs| - 1];
    assert docs == init + [last];
    if u != last {
      assert u in init;
      ClassificationIff(init, u);
    }
    if !HasRoleProfile(u) {
      assert u in Eligible(docs);
      var k :| 0 <= k < |Eligible(docs)| && Eligible(docs)[k] == u;
      assert GrantAll(Eligible(docs))[k] == GrantRavenRole(u);
    }
  }

  /** `a` is `b` with some elements left out, the rest kept in order. */
  predicate IsSubsequence(a: seq<UserDoc>, b: seq<UserDoc>)
    decreases |b|
  {
    if |a| == 0 then true
    else if |b| == 0 then false
    else if a[|a| - 1] == b[|b| - 1] then IsSubsequence(a[..|a| - 1], b[..|b| - 1])
    else IsSubsequence(a, b[..|b| - 1])
  }

  /** Both lists keep the relative input order of their users. */
  lemma PartitionPreservesOrder(docs: seq<UserDoc>)
    ensures IsSubsequence(Refused(docs), docs)
    ensures IsSubsequence(Eligible(docs), docs)
  {
    RefusedInOrder(docs);
    EligibleInOrder(docs);
  }

  lemma {:induction false} RefusedInOrder(docs: seq<UserDoc>)
    ensures IsSubsequence(Refused(docs), docs)
    decreases |docs|
  {
    if |docs| > 0 {
      var init := docs[..|docs| - 1];
      var last := docs[|docs| - 1];
      assert docs == init + [last];
      RefusedInOrder(init);
      RefusedSnoc(init, last);
      SubsequenceSnoc(Refused(init), init, last);
      if HasRoleProfile(last) {
        assert Refused(docs) == Refused(init) + [last];
      } else {
        assert Refused(docs) == Refused(init);
      }
    }
  }

  lemma {:induction false} EligibleInOrder(docs: seq<UserDoc>)
    ensures IsSubsequence(Eligible(docs), docs)
    decreases |docs|
  {
    if |docs| > 0 {
      var init := docs[..|docs| - 1];
      var last := docs[|docs| - 1];
      assert docs == init + [last];
      EligibleInOrder(init);
      RefusedSnoc(init, last);
      SubsequenceSnoc(Eligible(init), init, last);
      if !HasRoleProfile(last) {
        assert Eligible(docs) == Eligible(init) + [last];
      } else {
        assert Eligible(docs) == Eligible(init);
      }
    }
  }

  /** Appending the same element to both sides, or only to the longer one, keeps a subsequence. */
  lemma SubsequenceSnoc(a: seq<UserDoc>, b: seq<UserDoc>, x: UserDoc)
    requires IsSubsequence(a, b)
    ensures IsSubsequence(a + [x], b + [x])
    ensures IsSubsequence(a, b + [x])
  {
    assert (a + [x])[..|a|] == a;
    assert (b + [x])[..|b|] == b;
    SubsequenceExtend(a, b, x);
  }

  lemma {:induction false} SubsequenceExtend(a: seq<UserDoc>, b: seq<UserDoc>, x: UserDoc)
    requires IsSubsequence(a, b)
    ensures IsSubsequence(a, b + [x])
    decreases |b|, 1
  {
    var b' := b + [x];
    assert b'[..|b'| - 1] == b;
    if |a| > 0 && a[|a| - 1] == x {
      SubsequenceDropLast(a, b);
    }
  }

  lemma {:induction false} SubsequenceDropLast(a: seq<UserDoc>, b: seq<UserDoc>)
    requires |a| > 0
    requires IsSubsequence(a, b)
    ensures IsSubsequence(a[..|a| - 1], b)
    decreases |b|, 0
  {
    var b0 := b[..|b| - 1];
    assert b == b0 + [b[|b| - 1]];
    if a[|a| - 1] != b[|b| - 1] {
      SubsequenceDropLast(a, b0);
    }
    SubsequenceExtend(a[..|a| - 1], b0, b[|b| - 1]);
  }

  /** An `Employee` record with the user it is linked to. */
  datatype Employee = Employee(name: string, userId: string)

  /** An `Attendance` record; `docstatus` 1 means submitted. */
  datatype Attendance = Attendance(employee: string, status: string, attendanceDate: string, docstatus: int)

  /** What `is_user_on_leave` consults: installed apps, the two tables in database order, and today's date. */
  datatype Site = Site(installedApps: seq<string>, employees: seq<Employee>, attendance: seq<Attendance>, today: string)

  const Hrms: string := "hrms"
  const OnLeave: string := "On Leave"
  const Submitted: int := 1

  /** The database's existence lookup by `user_id`: the name of the first linked employee, if any. */
  function FindEmployee(employees: seq<Employee>, user: string): (r: Option<string>)
    ensures r.None? <==> forall i :: 0 <= i < |employees| ==> employees[i].userId != user
    ensures r.Some? ==>
      (exists k :: 0 <= k < |employees| && employees[k].userId == user && employees[k].name == r.value
        && forall j :: 0 <= j < k ==> employees[j].userId != user)
    decreases |employees|
  {
    if |employees| == 0 then None
    else if employees[0].userId == user then Some(employees[0].name)
    else
      var r := FindEmployee(employees[1..], user);
      assert r.Some? ==>
        (exists k :: 1 <= k < |employees| && employees[k].userId == user && employees[k].name == r.value
          && forall j :: 0 <= j < k ==> employees[j].userId != user) by {
        if r.Some? {
          var k :| 0 <= k < |employees[1..]| && employees[1..][k].userId == user && employees[1..][k].name == r.value
            && forall j :: 0 <= j < k ==> employees[1..][j].userId != user;
          assert employees[k + 1].userId == user && employees[k + 1].name == r.value;
        }
      }
      r
  }

  predicate IsSubmittedLeave(a: Attendance, employee: string, today: string) {
    a.employee == employee && a.status == OnLeave && a.attendanceDate == today && a.docstatus == Submitted
  }

  /** The database's existence lookup for a submitted "On Leave" attendance of `employee` today. */
  predicate LeaveRecordedToday(site: Site, employee: string) {
    exists i :: 0 <= i < |site.attendance| && IsSubmittedLeave(site.attendance[i], employee, site.today)
  }

  /** `is_user_on_leave`. An empty employee name would be falsy, like no employee at all. */
  function IsUserOnLeave(site: Site, user: string): (r: bool)
    ensures Hrms !in site.installedApps ==> !r
    ensures r ==>
      (exists k :: 0 <= k < |site.employees| && site.employees[k].userId == user
        && LeaveRecordedToday(site, site.employees[k].name))
  {
    if Hrms !in site.installedApps then false
    else
      var employee := FindEmployee(site.employees, user);
      if employee.Some? && employee.value != "" then
        LeaveRecordedToday(site, employee.value)
      else
        false
  }

  /** At most one employee is linked to `user`, and it has a name (as the HR app keeps them). */
  predicate LinkedOnce(employees: seq<Employee>, user: string) {
    forall i, j :: 0 <= i < |employees| && 0 <= j < |employees| && employees[i].userId == user && employees[j].userId == user
      ==> i == j && employees[i].name != ""
  }

  /** Some employee linked to `user` has a submitted "On Leave" attendance dated today. */
  predicate LeaveOfLinkedEmployee(site: Site, user: string) {
    exists k, i :: 0 <= k < |site.employees| && 0 <= i < |site.attendance| &&
      site.employees[k].userId == user && IsSubmittedLeave(site.attendance[i], site.employees[k].name, site.today)
  }

  /**
    When a user is linked to at most one employee, they are on leave exactly
    when the HR app is installed and some employee linked to them has a
    submitted "On Leave" attendance dated today.
   */
  lemma OnLeaveCharacterisation(site: Site, user: string)
    requires LinkedOnce(site.employees, user)
    ensures IsUserOnLeave(site, user) <==>
      Hrms in site.installedApps
      && LeaveOfLinkedEmployee(site, user)
  {
  }
}

=== FILE: wrappers.dfy ===
/** Optional values, and the results of operations that may raise. */
module Wrappers {

  /** An optional value: JavaScript's `undefined` or Python's `None` versus a present value. */
  datatype Option<+T> = None | Some(value: T)

  /** The outcome of an operation that may raise: a value or the error it raised. */
  datatype Result<+R, +E> = Success(value: R) | Failure(error: E)
}
